=== FILE: README.md ===
# Page harvester: a Dafny model of the `/save-proxy` handler

The repository serves one HTTP endpoint, `POST /save-proxy`, in three near-identical
copies (`index.js`, `save-proxy.js`, `indexs.js`). Given a JSON body `{ "url": ... }`, the
handler fetches the page and asks the HTML parser for the `src` of every `img`, the
`href` of every stylesheet `link` and the `src` of every `script[src]`. It resolves each
reference against the page's base URL and keeps the first occurrence of each absolute
URL together with its folder (`images`, `css` or `js`). It then streams a ZIP: first
`index.html` holding the page text, then every kept resource whose fetch succeeded,
stored under `folder/<sanitized leaf>`.

This project models that pipeline in Dafny 4.11 and proves properties about it.

- `common.dfy` (`Common`): `Option`, `byte`, `Url`.
- `path_leaf.dfy` (`PathLeaf`): `pathname.split("/").filter(Boolean).pop() || "file"` with
  JavaScript's `split` semantics. It also gives an independent description of the same
  leaf: strip the trailing slashes, then take what follows the last slash. Lemmas connect
  the two descriptions.
- `extract.dfy` (`Extract`): the `addIf` closure and its `resources`/`added` state. The
  three `.each` passes are a left fold over the candidates: images, then stylesheets,
  then scripts. `Firsts` is a reference definition based on indices and without any set:
  a candidate is kept when no earlier candidate resolves to the same URL.
- `archive.dfy` (`Archive`): the archive as a list of (name, content) entries, and the
  resource loop as a `while` loop whose failed fetches are skipped.
- `handler.dfy` (`Handler`): the three variants share extraction and assembly. They
  differ in three places: validation, the status for a failed page fetch, and the
  base-URL fallback.

The pieces the handler borrows from libraries are not defined here. Each one is a
function-valued parameter (an oracle), so every property holds whatever those libraries
do:
- `Extract.UrlLib.resolve`: `new URL(ref, base).href`, or None when it throws.
- `Extract.UrlLib.pathname`: `new URL(abs).pathname`.
- `Extract.UrlLib.sanitize`: the sanitize-filename package.
- `Handler.Env.page`: the page fetch and its response.
- `Handler.Env.parse`: cheerio's view of the page, as three attribute sequences.
- `Handler.Env.fetch`: `fetchBuffer`, which gives the body, or None when it throws.

In save-proxy.js, `addIf` returns `pathInZip` when it adds a resource and `undefined`
otherwise. cheerio's `.each` stops only when the callback returns the literal `false`. A
string is never `false`, so this return value never cuts a pass short. `Extract.AddIf`
returns the same value, and the other two variants discard it.

The three copies differ only where noted below. Every other line the table cites is
equivalent in all three files, up to logging text, selector quoting
(`link[rel='stylesheet']` in index.js, unquoted in the other two) and index.js:54 building
`pathInZip` inside the `push`, where save-proxy.js:51 and indexs.js:45 name it on a line of
its own. The table cites such lines in index.js. The `addIf` body is at
index.js:48-55, save-proxy.js:45-54 and indexs.js:39-47; the three `.each` passes at
index.js:57-59, save-proxy.js:57-59 and indexs.js:49-51; the resource loop at
index.js:68-75, save-proxy.js:70-77 and indexs.js:61-68. The differences are:
- Validation. Only index.js requires an `http://` or `https://` prefix. indexs.js requires
  only a bare `http` prefix, so `httpx:` gets through. save-proxy.js only checks that the
  url is present and non-empty.
- A page response that is not ok. index.js answers 502 with the upstream status.
  indexs.js answers 500 with the status, and save-proxy.js answers 500 without it.
- The base URL. Only index.js falls back to the requested url when the response URL is
  empty.
- The return value of `addIf`. Only save-proxy.js returns `pathInZip`.

## Model

| member | source | states |
|---|---|---|
| `PathLeaf.Split` | index.js:53 | `split("/")` always yields at least one piece, and no piece contains a slash |
| `PathLeaf.JoinSplit` | index.js:53 | joining the pieces of a split with `/` gives back the original pathname |
| `PathLeaf.SplitJoin` | index.js:53 | splitting a `/`-join of slash-free pieces gives back exactly those pieces |
| `PathLeaf.NonEmpty` | index.js:53 | `filter(Boolean)` keeps a piece if and only if the piece is non-empty, and never lengthens the list |
| `PathLeaf.NonEmptyAppend` | index.js:53 | filtering keeps order: the filter of a concatenation is the concatenation of the filters |
| `PathLeaf.NonEmptyKeepsAll` | index.js:53 | a list with no empty piece is left unchanged |
| `PathLeaf.LastSegment` | index.js:53 | the popped segment, when there is one, is non-empty and contains no slash |
| `PathLeaf.LeafName` | index.js:53 | the leaf handed to the sanitizer, after the `"file"` fallback, is never empty and never contains a slash |
| `PathLeaf.LastSegmentSpec` | index.js:53 | the popped segment is absent exactly when the pathname is empty after stripping its trailing slashes; otherwise it is the slash-free tail of the stripped pathname |
| `PathLeaf.LeafFallback` | index.js:53 | the `"file"` fallback is taken if and only if the pathname consists only of slashes (the empty pathname included) |
| `PathLeaf.LeafShape` | index.js:53 | otherwise the leaf is non-empty and slash-free, and the pathname has only slashes after it and a slash or nothing before it |
| `PathLeaf.LeafOfTrailingSlash` | index.js:53 | the pathname `/js/` gets the leaf `js`: the trailing slash is ignored |
| `PathLeaf.LeafOfRoot` | index.js:53 | the pathname `/` gets the fallback leaf `file` |
| `Extract.Resolve` | index.js:48-51 | a candidate contributes a URL only when its reference is present and non-empty and resolves to a non-empty URL. In that case the URL is the resolver's result, and every such candidate contributes one |
| `Extract.ArchivePath` | index.js:53-54 | every archive path begins with its folder name and a slash |
| `Extract.PathInZipShape` | index.js:53-54 | `pathInZip` is the folder, `/`, then the sanitized last non-empty segment, or the sanitized `"file"` when there is no such segment |
| `Extract.AddIf` | save-proxy.js:45-54 | `addIf` returns a path exactly when the candidate contributes a URL that is not yet in `added`. It then appends `(abs, pathInZip)` to `resources` and adds `abs` to `added`; otherwise nothing changes. It keeps `added` equal to the set of listed URLs, each URL listed once |
| `Extract.SkippedCandidate` | index.js:48-51 | a reference that is absent or empty, or that `resolveUrl` maps to null or to the empty string, leaves `resources` and `added` unchanged |
| `Extract.CollectFrom` | index.js:45-59 | the passes only append to `resources`, keep the invariant, and leave `added` holding exactly the URLs the visited candidates resolve to |
| `Extract.Candidates` | index.js:57-59 | the candidates are the image sources with folder `images`, then the stylesheet hrefs with folder `css`, then the script sources with folder `js`, each in document order |
| `Extract.ExtractResources` | index.js:45-59 | the final `resources` list has no URL twice, and every URL in it is the resolution of some candidate |
| `Extract.CollectIsFirsts` | index.js:48-59 | the fold with the `added` set gives exactly the descriptors of the candidates that no earlier candidate shares a URL with, in candidate order |
| `Extract.FirstsAreFirst` | index.js:51-54 | every kept resource is the descriptor (URL and folder) of the first candidate resolving to its URL |
| `Extract.FirstIsKept` | index.js:51-54 | every candidate that is first for its URL is kept, under its own folder |
| `Extract.Deduplicated` | index.js:46-54 | kept URLs are pairwise distinct, equal `added`, and equal the set of all resolved candidate URLs; so there are as many resources as distinct resolved URLs |
| `Extract.CollectAppend` | index.js:57-59 | running the passes one after another is folding over the concatenated candidate lists |
| `Extract.CollectOneFolder` | index.js:57-59 | a pass over one selector adds only resources stored under that selector's folder |
| `Extract.ExtractOrder` | index.js:57-59 | the resource list is a block of `images/` resources, then a block of `css/` ones, then a block of `js/` ones |
| `Archive.Fetched` | index.js:68-75 | the loop appends at most one entry per resource, and each appended entry holds a fetched body |
| `Archive.Assemble` | index.js:66-75 | the archive starts with `index.html` holding the page text, which is its only text entry, and has at most one more entry per resource |
| `Archive.AppendAll` | index.js:66-75 | the loop yields `index.html` with the page text first, followed by the entries of the resources whose fetch succeeded |
| `Archive.FetchedAppend` | index.js:68-75 | the entries of two resource lists processed in turn are their entries in turn, so resource order is kept |
| `Archive.FailureSkipped` | index.js:69-74 | a failed fetch drops only its own resource: the entries before and after it are unaffected |
| `Archive.FetchedHas` | index.js:68-75 | an entry is appended if and only if some resource's fetch succeeded and the entry is its `pathInZip` with that body |
| `Archive.AllSucceeded` | index.js:68-75 | when every fetch succeeds, entry i is resource i under its `pathInZip` with its body |
| `Archive.AllFailed` | index.js:66-75 | when every fetch fails, the archive holds only `index.html` |
| `Handler.Validate` | index.js:34 | in every variant a missing or empty url is refused |
| `Handler.IndexJsValidation` | index.js:33-36 | index.js refuses a missing/empty url ("Missing url") or one starting with neither `http://` nor `https://` ("must start with http or https"), and nothing else |
| `Handler.SaveProxyJsValidation` | save-proxy.js:31-32 | save-proxy.js refuses exactly a missing/empty url; no scheme is checked |
| `Handler.IndexsJsValidation` | indexs.js:26-27 | indexs.js refuses exactly a missing/empty url or one not starting with `http` |
| `Handler.ValidationNesting` | indexs.js:26-27 | every url index.js accepts is accepted by indexs.js, and every url indexs.js accepts is accepted by save-proxy.js |
| `Handler.ValidationSeparated` | indexs.js:26 | `httpx://a` passes indexs.js but not index.js; `ftp://example.com` passes save-proxy.js but not indexs.js |
| `Handler.RefusedBeforeFetch` | index.js:33-39 | a refused url gets 400 whatever the network, parser and URL library do: validation comes before any fetch |
| `Handler.PageFailure` | index.js:40 | in every variant a page response that is not ok gives a 5xx refusal (500 to 502) for a failed page fetch, never an archive |
| `Handler.PageFailureIndexJs` | index.js:39-40 | in index.js a page response that is not ok gives 502 with the upstream status, and no archive |
| `Handler.PageFailureSaveProxyJs` | save-proxy.js:35-36 | in save-proxy.js a page response that is not ok gives 500 without the status, and no archive |
| `Handler.PageFailureIndexsJs` | indexs.js:30-31 | in indexs.js a page response that is not ok gives 500 with the upstream status, and no archive |
| `Handler.BaseUrl` | index.js:42 | in every variant, references resolve against the post-redirect response URL whenever it is non-empty |
| `Handler.BaseUrlIndexJs` | index.js:42 | index.js resolves against the post-redirect response URL, and falls back to the requested url when that is empty |
| `Handler.BaseUrlNoFallback` | save-proxy.js:39 | save-proxy.js and indexs.js resolve against the response URL as it is, with no fallback |
| `Handler.Handle` | index.js:32-77 | a request gets 400 exactly when validation fails; it gets an archive exactly when validation passes and the page response is ok; the archive's first entry is `index.html` holding the page text |
| `Handler.Serve` | index.js:32-77 | the handler, with the `while` loop doing the appends, gives the same reply as `Handle` |
| `Handler.ArchiveContents` | index.js:41-75 | after `index.html`, the archive holds exactly the fetched entries of the resources extracted against the base URL, in order |
| `Handler.EmptyPageArchive` | index.js:66 | a page with no images, stylesheets or scripts yields an archive holding only `index.html` |
| `Handler.IndexNotShadowed` | index.js:66-71 | no resource entry is named `index.html`, so the page entry is never replaced |

## Left out

- HTTP server plumbing: routes, JSON body parsing, static files, `app.listen`, ports and console logging. It is I/O with no logic.
- Network details of both fetches: the `User-Agent` header, redirect following and the 15-second timeout in index.js. The page fetch is the oracle `Env.page`, which gives `ok`, `status`, the post-redirect `url` and the text. `fetchBuffer` is the oracle `Env.fetch`, which gives the body, or None where the code throws.
- URL resolution and pathname extraction, that is the WHATWG URL parser behind `new URL`: `resolve` and `pathname` are oracles. Re-parsing `abs` in `new URL(abs)` is taken not to throw, since `abs` came out of the same parser.
- sanitize-filename is the oracle `sanitize`. No claim is made that its output is non-empty or free of `/`. The code applies the `"file"` fallback before sanitizing, not after.
- Distinct archive paths are not claimed. Two different absolute URLs can share a leaf and a folder, and then two entries get the same name.
- cheerio HTML parsing is the oracle `Env.parse`. It gives the three attribute sequences in document order.
- The ZIP format itself: compression level 9, piping into the response, and `finalize`. The archive is its list of entries.
- Response headers. These are `Content-Type`, plus `Content-Disposition`, which carries the sanitized hostname in index.js and `page.zip` in the other two.
- The catch-all 500 handler and every thrown exception. This covers network errors of the page fetch, a failing `text()`, and node-fetch rejecting a non-HTTP scheme. It also covers a non-string `url`, which makes `startsWith` throw; in index.js:35 and indexs.js:26 that happens outside the `try`.
- Concurrency: the code fetches resources one at a time, and so does the model.

=== FILE: archive.dfy ===
/**
  Archive assembly: `index.html` holding the page text first, then one entry
  per resource whose fetch succeeded, in resource order. A failed fetch is
  skipped and the loop goes on. The ZIP encoding itself is not modelled; the
  archive is its list of (name, content) entries.
 */
module Archive {

  import opened Common
  import opened Extract

  /** An entry's payload: the page text or a fetched body. */
  datatype Content = Page(html: string) | Blob(bytes: seq<byte>)

  /** One archive entry, `archive.append(content, { name })`. */
  datatype Entry = Entry(name: string, content: Content)

  /** The name the page itself is stored under. */
  const IndexName: string := "index.html"

  /** `fetchBuffer(url)`: the body when the response is ok, None when it throws. */
  type Fetcher = Url -> Option<seq<byte>>

  /** `e` is the entry that resource `r` becomes when its fetch succeeds. */
  predicate StoredAs(fetch: Fetcher, r: Resource, e: Entry) {
    fetch(r.abs).Some? && e == Entry(r.pathInZip, Blob(fetch(r.abs).value))
  }

  /** The entries the resource loop appends: at most one per resource, each a fetched body. */
  function Fetched(fetch: Fetcher, rs: seq<Resource>): (entries: seq<Entry>)
    ensures |entries| <= |rs|
    ensures forall i :: 0 <= i < |entries| ==> entries[i].content.Blob?
  {
    if |rs| == 0 then []
    else
      var r := rs[|rs| - 1];
      Fetched(fetch, rs[..|rs| - 1])
        + (match fetch(r.abs) case None => [] case Some(buf) => [Entry(r.pathInZip, Blob(buf))])
  }

  /** The whole archive: the page, then the fetched resources; the page is its only text entry. */
  function Assemble(html: string, rs: seq<Resource>, fetch: Fetcher): (entries: seq<Entry>)
    ensures 1 <= |entries| <= |rs| + 1
    ensures entries[0] == Entry(IndexName, Page(html))
    ensures forall i :: 1 <= i < |entries| ==> entries[i].content.Blob?
  {
    [Entry(IndexName, Page(html))] + Fetched(fetch, rs)
  }

  /** The `for (const r of resources)` loop with its per-resource `try`/`catch`. */
  method AppendAll(html: string, rs: seq<Resource>, fetch: Fetcher) returns (entries: seq<Entry>)
    ensures |entries| >= 1 && entries[0] == Entry(IndexName, Page(html))
    ensures entries[1..] == Fetched(fetch, rs)
  {
    entries := [Entry(IndexName, Page(html))];
    var i := 0;
    while i < |rs|
      invariant 0 <= i <= |rs|
      invariant entries == [Entry(IndexName, Page(html))] + Fetched(fetch, rs[..i])
    {
      var r := rs[i];
      match fetch(r.abs) {
        case Some(buf) =>
          entries := entries + [Entry(r.pathInZip, Blob(buf))];
        case None =>
      }
      assert rs[..i + 1][..i] == rs[..i];
      i := i + 1;
    }
    assert rs[..|rs|] == rs;
  }

  // ---------------------------------------------------------------------
  // Lemmas
  // ---------------------------------------------------------------------

  /** Fetching two resource lists in turn appends their entries in turn. */
  lemma {:induction false} FetchedAppend(fetch: Fetcher, a: seq<Resource>, b: seq<Resource>)
    ensures Fetched(fetch, a + b) == Fetched(fetch, a) + Fetched(fetch, b)
    decreases |b|
  {
    if |b| == 0 {
      assert a + b == a;
    } else {
      var ab := a + b;
      assert ab[..|ab| - 1] == a + b[..|b| - 1];
      FetchedAppend(fetch, a, b[..|b| - 1]);
    }
  }

  /** A failed fetch drops its resource and nothing else: the loop continues past it. */
  lemma FailureSkipped(fetch: Fetcher, before: seq<Resource>, r: Resource, after: seq<Resource>)
    requires fetch(r.abs).None?
    ensures Fetched(fetch, before + [r] + after) == Fetched(fetch, before) + Fetched(fetch, after)
  {
    FetchedAppend(fetch, before + [r], after);
    assert (before + [r])[..|before|] == before;
    assert Fetched(fetch, before + [r]) == Fetched(fetch, before);
  }

  /** An entry is appended exactly when some resource's fetch succeeded and produced it. */
  lemma {:induction false} FetchedHas(fetch: Fetcher, rs: seq<Resource>, e: Entry)
    ensures e in Fetched(fetch, rs) <==> exists i :: 0 <= i < |rs| && StoredAs(fetch, rs[i], e)
  {
    if |rs| > 0 {
      var earlier := rs[..|rs| - 1];
      FetchedHas(fetch, earlier, e);
      if exists i :: 0 <= i < |earlier| && StoredAs(fetch, earlier[i], e) {
        var i :| 0 <= i < |earlier| && StoredAs(fetch, earlier[i], e);
        assert rs[i] == earlier[i];
      }
      if exists i :: 0 <= i < |rs| && StoredAs(fetch, rs[i], e) {
        var i :| 0 <= i < |rs| && StoredAs(fetch, rs[i], e);
        if i < |earlier| {
          assert earlier[i] == rs[i];
        }
      }
    }
  }

  /** When every fetch succeeds, every resource becomes an entry, in order, under its archive path. */
  lemma {:induction false} AllSucceeded(fetch: Fetcher, rs: seq<Resource>)
    requires forall i :: 0 <= i < |rs| ==> fetch(rs[i].abs).Some?
    ensures |Fetched(fetch, rs)| == |rs|
    ensures forall i :: 0 <= i < |rs| ==> StoredAs(fetch, rs[i], Fetched(fetch, rs)[i])
  {
    if |rs| > 0 {
      var earlier := rs[..|rs| - 1];
      AllSucceeded(fetch, earlier);
      forall i | 0 <= i < |rs| ensures StoredAs(fetch, rs[i], Fetched(fetch, rs)[i]) {
        if i < |earlier| {
          assert rs[i] == earlier[i];
          assert Fetched(fetch, rs)[i] == Fetched(fetch, earlier)[i];
        }
      }
    }
  }

  /** When every fetch fails, the archive holds only the page. */
  lemma {:induction false} AllFailed(fetch: Fetcher, html: string, rs: seq<Resource>)
    requires forall i :: 0 <= i < |rs| ==> fetch(rs[i].abs).None?
    ensures Assemble(html, rs, fetch) == [Entry(IndexName, Page(html))]
  {
    if |rs| > 0 {
      AllFailed(fetch, html, rs[..|rs| - 1]);
    }
  }
}

=== FILE: common.dfy ===
/** Shared vocabulary: optional values, bytes and URL strings. */
module Common {

  /** A value that may be absent: JavaScript's `undefined`/`null` versus a present value. */
  datatype Option<+T> = None | Some(value: T)

  /** One octet of a fetched response body. */
  newtype byte = x: int | 0 <= x < 256

  /** A URL as the URL library serialises it (`href`). */
  type Url = string
}

=== FILE: extract.dfy ===
/**
  Resource extraction: every candidate reference the page yields is resolved
  against the base URL, the first candidate for each absolute URL is kept
  together with its folder, and it is given the archive path
  `folder/<sanitized leaf>`. This is the `addIf` closure shared by the three
  handlers, folded over images, then stylesheets, then scripts.
 */
module Extract {

  import opened Common
  import PathLeaf

  /** The archive folder a candidate's element kind maps to. */
  datatype Folder = Images | Css | Js {
    function Name(): string {
      match this
      case Images => "images"
      case Css => "css"
      case Js => "js"
    }
  }

  /** One attribute value (`src` or `href`; None when absent) and the folder it is destined for. */
  datatype Candidate = Candidate(ref: Option<string>, folder: Folder)

  /** A kept resource: its absolute URL and the name it gets in the archive. */
  datatype Resource = Resource(abs: Url, pathInZip: string)

  /** The `resources` list and the `added` set that `addIf` updates. */
  datatype Job = Job(resources: seq<Resource>, added: set<Url>)

  /** What the HTML parser reports, in document order within each selector. */
  datatype Markup = Markup(
    imgSrc: seq<Option<string>>,          // $("img") ... attr("src")
    stylesheetHref: seq<Option<string>>,  // $("link[rel=stylesheet]") ... attr("href")
    scriptSrc: seq<Option<string>>)       // $("script[src]") ... attr("src")

  /**
    The URL library and the filename sanitizer, which this model does not
    define: `resolve(base, ref)` is `new URL(ref, base).href` (None when it
    throws), `pathname(abs)` is `new URL(abs).pathname`, `sanitize` is the
    sanitize-filename package.
   */
  datatype UrlLib = UrlLib(
    resolve: (Url, string) -> Option<Url>,
    pathname: Url -> string,
    sanitize: string -> string)

  // ---------------------------------------------------------------------
  // The operations
  // ---------------------------------------------------------------------

  /**
    The absolute URL a candidate contributes: `if (!resUrl) return;` then
    `if (!abs ...) return;`, so none when the attribute is absent or empty,
    does not resolve, or resolves to the empty string.
   */
  function Resolve(lib: UrlLib, base: Url, c: Candidate): (r: Option<Url>)
    ensures c.ref == None || c.ref == Some("") ==> r.None?
    ensures r.Some? ==> r.value != "" && c.ref.Some? && lib.resolve(base, c.ref.value) == r
    ensures (c.ref.Some? && c.ref.value != "" && lib.resolve(base, c.ref.value).Some?
             && lib.resolve(base, c.ref.value).value != "") ==> r.Some?
  {
    match c.ref
    case None => None
    case Some(s) =>
      if s == "" then None
      else
        var abs := lib.resolve(base, s);
        if abs == Some("") then None else abs
  }

  /** The archive path of a resource found under `folder`: it always begins with the folder name and a slash. */
  function ArchivePath(lib: UrlLib, folder: Folder, abs: Url): (path: string)
    ensures folder.Name() + "/" <= path
  {
    var name := folder.Name() + "/";
    var path := name + lib.sanitize(PathLeaf.LeafName(lib.pathname(abs)));
    assert path[..|name|] == name;
    path
  }

  /**
    The archive path is the folder, a slash, and the sanitized last non-empty
    segment of the URL's pathname, or the sanitized `"file"` when there is none.
   */
  lemma PathInZipShape(lib: UrlLib, folder: Folder, abs: Url)
    ensures var q := PathLeaf.StripTrailing(lib.pathname(abs));
      ArchivePath(lib, folder, abs) ==
        folder.Name() + "/" + lib.sanitize(if q == "" then "file" else PathLeaf.AfterLastSlash(q))
  {
    PathLeaf.LastSegmentSpec(lib.pathname(abs));
  }

  /** The descriptor a resolvable candidate would produce. */
  function Describe(lib: UrlLib, base: Url, c: Candidate): Resource
    requires Resolve(lib, base, c).Some?
  {
    var abs := Resolve(lib, base, c).value;
    Resource(abs, ArchivePath(lib, c.folder, abs))
  }

  /** No two resources share an absolute URL. */
  predicate Distinct(rs: seq<Resource>) {
    forall i, j :: 0 <= i < j < |rs| ==> rs[i].abs != rs[j].abs
  }

  /** The absolute URLs of a resource list. */
  function AbsSet(rs: seq<Resource>): set<Url> {
    if |rs| == 0 then {} else AbsSet(rs[..|rs| - 1]) + {rs[|rs| - 1].abs}
  }

  /** The invariant `addIf` keeps: `added` is exactly the URLs of `resources`, each listed once. */
  predicate Wellformed(job: Job) {
    && Distinct(job.resources)
    && AbsSet(job.resources) == job.added
    && |job.resources| == |job.added|
  }

  /**
    `addIf(resUrl, folder)`: the new state and the value it returns
    (save-proxy.js returns `pathInZip` when it adds, undefined otherwise;
    the other two handlers discard it).
   */
  function AddIf(lib: UrlLib, base: Url, job: Job, c: Candidate): (out: (Job, Option<string>))
    ensures out.1.Some? <==> Resolve(lib, base, c).Some? && Resolve(lib, base, c).value !in job.added
    ensures out.1.None? ==> out.0 == job
    ensures out.1.Some? ==>
      var abs := Resolve(lib, base, c).value;
      && out.1.value == ArchivePath(lib, c.folder, abs)
      && out.0.resources == job.resources + [Resource(abs, out.1.value)]
      && out.0.added == job.added + {abs}
    ensures Wellformed(job) ==> Wellformed(out.0)
  {
    match Resolve(lib, base, c)
    case None => (job, None)
    case Some(abs) =>
      if abs in job.added then (job, None)
      else
        var path := ArchivePath(lib, c.folder, abs);
        var rs := job.resources + [Resource(abs, path)];
        assert rs[..|rs| - 1] == job.resources;
        assert Wellformed(job) ==> Distinct(rs) by {
          if Wellformed(job) {
            AbsSetHas(job.resources);
          }
        }
        (Job(rs, job.added + {abs}), Some(path))
  }

  /** The absolute URLs a candidate list resolves to. */
  function ResolvedSet(lib: UrlLib, base: Url, cands: seq<Candidate>): set<Url> {
    if |cands| == 0 then {}
    else
      var c := cands[|cands| - 1];
      ResolvedSet(lib, base, cands[..|cands| - 1])
        + (match Resolve(lib, base, c) case None => {} case Some(abs) => {abs})
  }

  /** `addIf` applied to each candidate in turn, starting from `job`. */
  function CollectFrom(lib: UrlLib, base: Url, job: Job, cands: seq<Candidate>): (r: Job)
    ensures Wellformed(job) ==> Wellformed(r)
    ensures job.resources <= r.resources
    ensures r.added == job.added + ResolvedSet(lib, base, cands)
  {
    if |cands| == 0 then job
    else AddIf(lib, base, CollectFrom(lib, base, job, cands[..|cands| - 1]), cands[|cands| - 1]).0
  }

  /** A fresh job: no resources, nothing added. */
  const Empty: Job := Job([], {})

  /** The candidates in the order the handler visits them: images, stylesheets, scripts. */
  function Candidates(m: Markup): (cands: seq<Candidate>)
    ensures |cands| == |m.imgSrc| + |m.stylesheetHref| + |m.scriptSrc|
    ensures forall i :: 0 <= i < |m.imgSrc| ==> cands[i] == Candidate(m.imgSrc[i], Images)
    ensures forall i :: 0 <= i < |m.stylesheetHref| ==>
      cands[|m.imgSrc| + i] == Candidate(m.stylesheetHref[i], Css)
    ensures forall i :: 0 <= i < |m.scriptSrc| ==>
      cands[|m.imgSrc| + |m.stylesheetHref| + i] == Candidate(m.scriptSrc[i], Js)
  {
    Tag(m.imgSrc, Images) + Tag(m.stylesheetHref, Css) + Tag(m.scriptSrc, Js)
  }

  /** Pairs each attribute value with the folder of its selector. */
  function Tag(refs: seq<Option<string>>, folder: Folder): (cands: seq<Candidate>)
    ensures |cands| == |refs|
    ensures forall i :: 0 <= i < |refs| ==> cands[i] == Candidate(refs[i], folder)
  {
    seq(|refs|, i requires 0 <= i < |refs| => Candidate(refs[i], folder))
  }

  /** The `resources` list after the three `.each` passes: no URL twice, each one resolved from some candidate. */
  function ExtractResources(lib: UrlLib, base: Url, m: Markup): (rs: seq<Resource>)
    ensures Distinct(rs)
    ensures forall k :: 0 <= k < |rs| ==> rs[k].abs in ResolvedSet(lib, base, Candidates(m))
  {
    var job := CollectFrom(lib, base, Empty, Candidates(m));
    AbsSetHas(job.resources);
    job.resources
  }

  // ---------------------------------------------------------------------
  // Reference: the first occurrence of each absolute URL, by index
  // ---------------------------------------------------------------------

  /** `c` resolves, and to a URL none of `earlier` resolves to. */
  predicate IsNew(lib: UrlLib, base: Url, earlier: seq<Candidate>, c: Candidate) {
    && Resolve(lib, base, c).Some?
    && forall j :: 0 <= j < |earlier| ==> Resolve(lib, base, earlier[j]) != Resolve(lib, base, c)
  }

  /** The descriptors of the candidates that are first for their absolute URL, in candidate order. */
  function Firsts(lib: UrlLib, base: Url, cands: seq<Candidate>): seq<Resource> {
    if |cands| == 0 then []
    else
      var earlier := cands[..|cands| - 1];
      var c := cands[|cands| - 1];
      Firsts(lib, base, earlier)
        + (if IsNew(lib, base, earlier, c) then [Describe(lib, base, c)] else [])
  }

  // ---------------------------------------------------------------------
  // Lemmas
  // ---------------------------------------------------------------------

  /** Every listed resource's URL is in `AbsSet`. */
  lemma {:induction false} AbsSetHas(rs: seq<Resource>)
    ensures forall i :: 0 <= i < |rs| ==> rs[i].abs in AbsSet(rs)
  {
    if |rs| > 0 {
      AbsSetHas(rs[..|rs| - 1]);
      forall i | 0 <= i < |rs| - 1 ensures rs[i].abs in AbsSet(rs) {
        assert rs[..|rs| - 1][i] == rs[i];
      }
    }
  }

  /** A URL is in `ResolvedSet` exactly when some candidate resolves to it. */
  lemma {:induction false} ResolvedSetHas(lib: UrlLib, base: Url, cands: seq<Candidate>, abs: Url)
    ensures abs in ResolvedSet(lib, base, cands) <==>
      exists j :: 0 <= j < |cands| && Resolve(lib, base, cands[j]) == Some(abs)
  {
    if |cands| > 0 {
      var earlier := cands[..|cands| - 1];
      ResolvedSetHas(lib, base, earlier, abs);
      if abs in ResolvedSet(lib, base, earlier) {
        var j :| 0 <= j < |earlier| && Resolve(lib, base, earlier[j]) == Some(abs);
        assert cands[j] == earlier[j];
      }
      if exists j :: 0 <= j < |cands| && Resolve(lib, base, cands[j]) == Some(abs) {
        var j :| 0 <= j < |cands| && Resolve(lib, base, cands[j]) == Some(abs);
        if j < |earlier| {
          assert earlier[j] == cands[j];
        }
      }
    }
  }

  /** A candidate adds a resource after `earlier` exactly when it is new with respect to `earlier`. */
  lemma AddsIffNew(lib: UrlLib, base: Url, earlier: seq<Candidate>, c: Candidate)
    ensures var job := CollectFrom(lib, base, Empty, earlier);
      AddIf(lib, base, job, c).1.Some? <==> IsNew(lib, base, earlier, c)
  {
    if Resolve(lib, base, c).Some? {
      ResolvedSetHas(lib, base, earlier, Resolve(lib, base, c).value);
    }
  }

  /**
    The fold with the `added` set keeps exactly the first candidate for each
    absolute URL, with that candidate's folder, in candidate order.
   */
  lemma {:induction false} CollectIsFirsts(lib: UrlLib, base: Url, cands: seq<Candidate>)
    ensures CollectFrom(lib, base, Empty, cands).resources == Firsts(lib, base, cands)
  {
    if |cands| > 0 {
      var earlier := cands[..|cands| - 1];
      var c := cands[|cands| - 1];
      CollectIsFirsts(lib, base, earlier);
      AddsIffNew(lib, base, earlier, c);
    }
  }

  /** Candidate `j` is the first one to resolve to its absolute URL. */
  predicate FirstAt(lib: UrlLib, base: Url, cands: seq<Candidate>, j: int) {
    0 <= j < |cands| && IsNew(lib, base, cands[..j], cands[j])
  }

  /** `r` is the descriptor of a candidate that is first for its absolute URL. */
  predicate FromFirst(lib: UrlLib, base: Url, cands: seq<Candidate>, r: Resource) {
    exists j :: 0 <= j < |cands| && FirstAt(lib, base, cands, j) && r == Describe(lib, base, cands[j])
  }

  /** Being first within a prefix is being first within the whole list. */
  lemma FromFirstExtend(lib: UrlLib, base: Url, cands: seq<Candidate>, n: nat, r: Resource)
    requires n <= |cands|
    requires FromFirst(lib, base, cands[..n], r)
    ensures FromFirst(lib, base, cands, r)
  {
    var earlier := cands[..n];
    var j :| 0 <= j < |earlier| && FirstAt(lib, base, earlier, j) && r == Describe(lib, base, earlier[j]);
    assert earlier[..j] == cands[..j];
    assert earlier[j] == cands[j];
    assert FirstAt(lib, base, cands, j);
  }

  /** Every kept resource is the descriptor of a candidate that was first for its URL. */
  lemma {:induction false} FirstsAreFirst(lib: UrlLib, base: Url, cands: seq<Candidate>)
    ensures forall k :: 0 <= k < |Firsts(lib, base, cands)| ==>
      FromFirst(lib, base, cands, Firsts(lib, base, cands)[k])
  {
    if |cands| > 0 {
      var n := |cands| - 1;
      var earlier := cands[..n];
      FirstsAreFirst(lib, base, earlier);
      var prev := Firsts(lib, base, earlier);
      var rs := Firsts(lib, base, cands);
      var isNew := IsNew(lib, base, earlier, cands[n]);
      assert rs == prev + (if isNew then [Describe(lib, base, cands[n])] else []);
      forall k | 0 <= k < |rs| ensures FromFirst(lib, base, cands, rs[k]) {
        if k < |prev| {
          assert rs[k] == prev[k];
          FromFirstExtend(lib, base, cands, n, prev[k]);
        } else {
          assert FirstAt(lib, base, cands, n);
        }
      }
    }
  }

  /** Every candidate that is first for its URL is kept, with its own folder. */
  lemma {:induction false} FirstIsKept(lib: UrlLib, base: Url, cands: seq<Candidate>, j: int)
    requires FirstAt(lib, base, cands, j)
    ensures Describe(lib, base, cands[j]) in Firsts(lib, base, cands)
  {
    var n := |cands| - 1;
    var earlier := cands[..n];
    if j < n {
      assert earlier[..j] == cands[..j];
      assert earlier[j] == cands[j];
      FirstIsKept(lib, base, earlier, j);
    } else {
      assert cands[..j] == earlier;
    }
  }

  /** Kept URLs are pairwise distinct and are exactly the URLs some candidate resolves to. */
  lemma Deduplicated(lib: UrlLib, base: Url, cands: seq<Candidate>)
    ensures var job := CollectFrom(lib, base, Empty, cands);
      && Distinct(job.resources)
      && AbsSet(job.resources) == job.added == ResolvedSet(lib, base, cands)
      && |job.resources| == |ResolvedSet(lib, base, cands)|
  {
  }

  /** Candidates that are absent, empty or unresolvable change nothing. */
  lemma SkippedCandidate(lib: UrlLib, base: Url, job: Job, c: Candidate)
    requires || c.ref == None || c.ref == Some("")
             || (c.ref.Some? && lib.resolve(base, c.ref.value) in {None, Some("")})
    ensures AddIf(lib, base, job, c) == (job, None)
  {
  }

  /** Folding over two lists in turn is folding over their concatenation. */
  lemma {:induction false} CollectAppend(lib: UrlLib, base: Url, job: Job, a: seq<Candidate>, b: seq<Candidate>)
    ensures CollectFrom(lib, base, job, a + b) == CollectFrom(lib, base, CollectFrom(lib, base, job, a), b)
    decreases |b|
  {
    if |b| == 0 {
      assert a + b == a;
    } else {
      var init, c := b[..|b| - 1], b[|b| - 1];
      assert b == init + [c];
      assert a + b == (a + init) + [c];
      CollectAppend(lib, base, job, a, init);
      CollectSnoc(lib, base, job, a + init, c);
      CollectSnoc(lib, base, CollectFrom(lib, base, job, a), init, c);
    }
  }

  /** One more candidate is one more `addIf`. */
  lemma CollectSnoc(lib: UrlLib, base: Url, job: Job, cands: seq<Candidate>, c: Candidate)
    ensures CollectFrom(lib, base, job, cands + [c]) == AddIf(lib, base, CollectFrom(lib, base, job, cands), c).0
  {
    assert (cands + [c])[..|cands|] == cands;
  }

  /** `r` was stored under `folder`. */
  predicate InFolder(r: Resource, folder: Folder) {
    folder.Name() + "/" <= r.pathInZip
  }

  /** Resources added while folding candidates of one folder are all stored under that folder. */
  lemma {:induction false} CollectOneFolder(lib: UrlLib, base: Url, job: Job, cands: seq<Candidate>, folder: Folder)
    requires forall i :: 0 <= i < |cands| ==> cands[i].folder == folder
    ensures forall k :: |job.resources| <= k < |CollectFrom(lib, base, job, cands).resources| ==>
      InFolder(CollectFrom(lib, base, job, cands).resources[k], folder)
  {
    if |cands| > 0 {
      var earlier := cands[..|cands| - 1];
      var c := cands[|cands| - 1];
      assert c.folder == folder;
      CollectOneFolder(lib, base, job, earlier, folder);
      var mid := CollectFrom(lib, base, job, earlier);
      var out := AddIf(lib, base, mid, c);
      var rs := out.0.resources;
      assert forall k :: |job.resources| <= k < |mid.resources| ==> InFolder(mid.resources[k], folder);
      if out.1.Some? {
        var abs := Resolve(lib, base, c).value;
        assert rs == mid.resources + [Resource(abs, ArchivePath(lib, folder, abs))];
        forall k | |job.resources| <= k < |rs| ensures InFolder(rs[k], folder) {
          if k < |mid.resources| {
            assert rs[k] == mid.resources[k];
          }
        }
      }
      assert out.0 == CollectFrom(lib, base, job, cands);
    }
  }

  /** `rs` splits at `i` and `j` into image, stylesheet and script blocks. */
  predicate Blocks(rs: seq<Resource>, i: int, j: int) {
    && 0 <= i <= j <= |rs|
    && (forall k :: 0 <= k < i ==> InFolder(rs[k], Images))
    && (forall k :: i <= k < j ==> InFolder(rs[k], Css))
    && (forall k :: j <= k < |rs| ==> InFolder(rs[k], Js))
  }

  /**
    The resource list is three consecutive blocks: the images' resources,
    then the stylesheets', then the scripts'.
   */
  lemma ExtractOrder(lib: UrlLib, base: Url, m: Markup)
    ensures exists i, j :: Blocks(ExtractResources(lib, base, m), i, j)
  {
    var imgs := Tag(m.imgSrc, Images);
    var css := Tag(m.stylesheetHref, Css);
    var js := Tag(m.scriptSrc, Js);
    assert Candidates(m) == imgs + css + js;
    CollectAppend(lib, base, Empty, imgs + css, js);
    CollectAppend(lib, base, Empty, imgs, css);
    var j1 := CollectFrom(lib, base, Empty, imgs);
    var j2 := CollectFrom(lib, base, j1, css);
    var j3 := CollectFrom(lib, base, j2, js);
    CollectOneFolder(lib, base, Empty, imgs, Images);
    CollectOneFolder(lib, base, j1, css, Css);
    CollectOneFolder(lib, base, j2, js, Js);
    var rs := j3.resources;
    assert rs == ExtractResources(lib, base, m);
    var i, j := |j1.resources|, |j2.resources|;
    forall k | 0 <= k < i ensures InFolder(rs[k], Images) {
      assert rs[k] == j1.resources[k];
    }
    forall k | i <= k < j ensures InFolder(rs[k], Css) {
      assert rs[k] == j2.resources[k];
    }
    assert Blocks(rs, i, j);
  }
}

=== FILE: handler.dfy ===
/**
  The `/save-proxy` request handler, in the three variants the repository
  carries (index.js, save-proxy.js, indexs.js). They share extraction and
  archive assembly and differ in how the `url` field is validated, which
  status a failed page fetch gets, and whether the base URL falls back to
  the requested URL.
 */
module Handler {

  import opened Common
  import opened Extract
  import opened Archive

  /** Which copy of the handler. */
  datatype Variant = IndexJs | SaveProxyJs | IndexsJs

  /** The page response as the handler reads it: `ok`, `status`, the post-redirect `url`, and `text()`. */
  datatype PageResponse = PageResponse(ok: bool, status: int, url: string, text: string)

  /** Everything the handler consults outside itself. */
  datatype Env = Env(
    lib: UrlLib,                    // URL parsing and filename sanitizing
    page: Url -> PageResponse,      // the page fetch
    parse: string -> Markup,        // cheerio's view of the page
    fetch: Fetcher)                 // fetchBuffer

  /** Why a request was refused; the plain-text body names it. */
  datatype Reason =
    | MissingUrl                          // "Missing url"
    | SchemeRequired                      // "... must start with http or https"
    | PageFetchFailed(upstream: Option<int>)  // "Failed to fetch page[: status]"

  /** The HTTP outcome: an error status with its reason, or a ZIP body. */
  datatype Reply = Refused(code: int, reason: Reason) | Zip(entries: seq<Entry>)

  /** `!url`: absent, or the empty string. */
  predicate Missing(url: Option<string>) {
    url == None || url == Some("")
  }

  /** The validation each variant performs before any fetch; None means the request goes on. */
  function Validate(v: Variant, url: Option<string>): (r: Option<Reason>)
    ensures Missing(url) ==> r.Some?
  {
    match v
    case IndexJs =>
      if Missing(url) then Some(MissingUrl)
      else if !("http://" <= url.value) && !("https://" <= url.value) then Some(SchemeRequired)
      else None
    case SaveProxyJs =>
      if Missing(url) then Some(MissingUrl) else None
    case IndexsJs =>
      if Missing(url) || !("http" <= url.value) then Some(SchemeRequired) else None
  }

  /** The reply for a page response that is not ok. */
  function PageFailure(v: Variant, resp: PageResponse): (r: Reply)
    ensures r.Refused? && 500 <= r.code <= 502
    ensures r.reason.PageFetchFailed?
  {
    match v
    case IndexJs => Refused(502, PageFetchFailed(Some(resp.status)))
    case SaveProxyJs => Refused(500, PageFetchFailed(None))
    case IndexsJs => Refused(500, PageFetchFailed(Some(resp.status)))
  }

  /** The URL references are resolved against. */
  function BaseUrl(v: Variant, requested: Url, resp: PageResponse): (base: Url)
    ensures resp.url != "" ==> base == resp.url
  {
    match v
    case IndexJs => if resp.url != "" then resp.url else requested
    case SaveProxyJs => resp.url
    case IndexsJs => resp.url
  }

  /** One request to `/save-proxy` with body field `url`. */
  function Handle(v: Variant, env: Env, url: Option<string>): (reply: Reply)
    ensures (reply.Refused? && reply.code == 400) <==> Validate(v, url).Some?
    ensures reply.Zip? <==> Validate(v, url).None? && env.page(url.value).ok
    ensures reply.Zip? ==>
      |reply.entries| >= 1 && reply.entries[0] == Entry(IndexName, Page(env.page(url.value).text))
  {
    match Validate(v, url)
    case Some(reason) => Refused(400, reason)
    case None =>
      var resp := env.page(url.value);
      if !resp.ok then PageFailure(v, resp)
      else
        var rs := ExtractResources(env.lib, BaseUrl(v, url.value, resp), env.parse(resp.text));
        Zip(Assemble(resp.text, rs, env.fetch))
  }

  /** The handler as it runs: validation, page fetch, extraction, then the append loop. */
  method Serve(v: Variant, env: Env, url: Option<string>) returns (reply: Reply)
    ensures reply == Handle(v, env, url)
  {
    var invalid := Validate(v, url);
    if invalid.Some? {
      return Refused(400, invalid.value);
    }
    var resp := env.page(url.value);
    if !resp.ok {
      return PageFailure(v, resp);
    }
    var rs := ExtractResources(env.lib, BaseUrl(v, url.value, resp), env.parse(resp.text));
    var entries := AppendAll(resp.text, rs, env.fetch);
    assert entries == Assemble(resp.text, rs, env.fetch);
    reply := Zip(entries);
  }

  // ---------------------------------------------------------------------
  // The lemmas named after one file form a per-variant decision table: each
  // states what a branch of Validate, PageFailure, BaseUrl or Handle gives
  // for that file, and follows from the definitions by unfolding. The facts
  // that relate the three files are ValidationNesting, ValidationSeparated,
  // RefusedBeforeFetch and IndexNotShadowed.
  // ---------------------------------------------------------------------

  // Validation

  /** index.js refuses with 400 exactly a missing url or one starting with neither "http://" nor "https://". */
  lemma IndexJsValidation(url: Option<string>)
    ensures Validate(IndexJs, url).Some? <==>
      Missing(url) || (!("http://" <= url.value) && !("https://" <= url.value))
    ensures Validate(IndexJs, url) == Some(MissingUrl) <==> Missing(url)
  {
  }

  /** save-proxy.js refuses only a missing url; any scheme passes. */
  lemma SaveProxyJsValidation(url: Option<string>)
    ensures Validate(SaveProxyJs, url).Some? <==> Missing(url)
  {
  }

  /** indexs.js refuses exactly a missing url or one not starting with "http". */
  lemma IndexsJsValidation(url: Option<string>)
    ensures Validate(IndexsJs, url).Some? <==> Missing(url) || !("http" <= url.value)
  {
  }

  /** The three checks are nested: index.js is the strictest, save-proxy.js the loosest. */
  lemma ValidationNesting(url: Option<string>)
    ensures Validate(IndexJs, url).None? ==> Validate(IndexsJs, url).None?
    ensures Validate(IndexsJs, url).None? ==> Validate(SaveProxyJs, url).None?
  {
    if Validate(IndexJs, url).None? {
      var u := url.value;
      if "http://" <= u {
        assert u[..4] == "http://"[..4];
      } else {
        assert u[..4] == "https://"[..4];
      }
    }
  }

  /** The nesting is strict: "httpx://a" gets past indexs.js only, "ftp://example.com" past save-proxy.js only. */
  lemma ValidationSeparated()
    ensures Validate(IndexJs, Some("httpx://a")).Some?
    ensures Validate(IndexsJs, Some("httpx://a")).None?
    ensures Validate(IndexsJs, Some("ftp://example.com")).Some?
    ensures Validate(SaveProxyJs, Some("ftp://example.com")).None?
  {
    assert "httpx://a"[..4] == "http";
    assert "httpx://a"[4] == 'x';
    assert "ftp://example.com"[0] == 'f';
  }

  // The request as a whole

  /**
    A refused url gets 400 whatever the network, the parser or the URL
    library would do: nothing is fetched before validation.
   */
  lemma RefusedBeforeFetch(v: Variant, env1: Env, env2: Env, url: Option<string>)
    requires Validate(v, url).Some?
    ensures Handle(v, env1, url) == Handle(v, env2, url) == Refused(400, Validate(v, url).value)
  {
  }

  /** index.js answers a page response that is not ok with 502 and the upstream status. */
  lemma PageFailureIndexJs(env: Env, url: Option<string>)
    requires Validate(IndexJs, url).None? && !env.page(url.value).ok
    ensures Handle(IndexJs, env, url) == Refused(502, PageFetchFailed(Some(env.page(url.value).status)))
  {
  }

  /** save-proxy.js answers a page response that is not ok with 500 and no status. */
  lemma PageFailureSaveProxyJs(env: Env, url: Option<string>)
    requires Validate(SaveProxyJs, url).None? && !env.page(url.value).ok
    ensures Handle(SaveProxyJs, env, url) == Refused(500, PageFetchFailed(None))
  {
  }

  /** indexs.js answers a page response that is not ok with 500 and the upstream status. */
  lemma PageFailureIndexsJs(env: Env, url: Option<string>)
    requires Validate(IndexsJs, url).None? && !env.page(url.value).ok
    ensures Handle(IndexsJs, env, url) == Refused(500, PageFetchFailed(Some(env.page(url.value).status)))
  {
  }

  /** index.js resolves against the post-redirect URL, or the requested one when the response has none. */
  lemma BaseUrlIndexJs(requested: Url, resp: PageResponse)
    ensures BaseUrl(IndexJs, requested, resp) == (if resp.url == "" then requested else resp.url)
  {
  }

  /** save-proxy.js and indexs.js resolve against the response URL as it is, even when empty. */
  lemma BaseUrlNoFallback(v: Variant, requested: Url, resp: PageResponse)
    requires v != IndexJs
    ensures BaseUrl(v, requested, resp) == resp.url
  {
  }

  /**
    A successful request's archive is the page followed by the fetched
    resources extracted against the post-redirect URL (index.js alone falls
    back to the requested URL when the response carries none).
   */
  lemma ArchiveContents(v: Variant, env: Env, url: Option<string>)
    requires Validate(v, url).None? && env.page(url.value).ok
    ensures var resp := env.page(url.value);
      var base := if v == IndexJs && resp.url == "" then url.value else resp.url;
      Handle(v, env, url).entries[1..] ==
        Fetched(env.fetch, ExtractResources(env.lib, base, env.parse(resp.text)))
  {
    var resp := env.page(url.value);
    var entries := Handle(v, env, url).entries;
    assert entries[1..] == ([Entry(IndexName, Page(resp.text))] + Fetched(env.fetch, ExtractResources(env.lib, BaseUrl(v, url.value, resp), env.parse(resp.text))))[1..];
  }

  /** A page with no images, stylesheets or scripts yields an archive holding only `index.html`. */
  lemma EmptyPageArchive(v: Variant, env: Env, url: Option<string>)
    requires Validate(v, url).None? && env.page(url.value).ok
    requires env.parse(env.page(url.value).text) == Markup([], [], [])
    ensures Handle(v, env, url).entries == [Entry(IndexName, Page(env.page(url.value).text))]
  {
    var m := Markup([], [], []);
    assert Candidates(m) == [];
  }

  /** A resource path always begins with a folder, so it is never `index.html`. */
  lemma FolderPathNotIndex(r: Resource, folder: Folder)
    requires InFolder(r, folder)
    ensures r.pathInZip != IndexName
  {
    match folder
    case Images => assert r.pathInZip[1] == 'm' != IndexName[1];
    case Css => assert r.pathInZip[0] == 'c' != IndexName[0];
    case Js => assert r.pathInZip[0] == 'j' != IndexName[0];
  }

  /** No resource entry replaces the page: every later entry has another name. */
  lemma IndexNotShadowed(v: Variant, env: Env, url: Option<string>)
    requires Validate(v, url).None? && env.page(url.value).ok
    ensures var entries := Handle(v, env, url).entries;
      forall i :: 1 <= i < |entries| ==> entries[i].name != IndexName
  {
    var resp := env.page(url.value);
    var base := BaseUrl(v, url.value, resp);
    var m := env.parse(resp.text);
    var rs := ExtractResources(env.lib, base, m);
    ArchiveContents(v, env, url);
    var entries := Handle(v, env, url).entries;
    ExtractOrder(env.lib, base, m);
    var a, b :| Blocks(rs, a, b);
    forall k | 0 <= k < |rs| ensures rs[k].pathInZip != IndexName {
      if k < a {
        FolderPathNotIndex(rs[k], Images);
      } else if k < b {
        FolderPathNotIndex(rs[k], Css);
      } else {
        FolderPathNotIndex(rs[k], Js);
      }
    }
    forall i | 1 <= i < |entries| ensures entries[i].name != IndexName {
      var e := entries[i];
      assert e == entries[1..][i - 1];
      FetchedHas(env.fetch, rs, e);
      var k :| 0 <= k < |rs| && StoredAs(env.fetch, rs[k], e);
    }
  }
}

=== FILE: path_leaf.dfy ===
/**
  The leaf name a resource is stored under:
  `pathname.split("/").filter(Boolean).pop() || "file"`.
  Splitting and filtering follow JavaScript's `String.prototype.split` with a
  one-character separator and `Array.prototype.filter(Boolean)` on strings.
  Sequences are built from the end so that each step adds one character.
 */
module PathLeaf {

  import opened Common

  /** Every character of `s` is a slash (vacuously true of ""). */
  predicate AllSlashes(s: string) {
    forall i :: 0 <= i < |s| ==> s[i] == '/'
  }

  /** `s.split("/")`: the pieces between slashes, in order; never an empty list. */
  function Split(s: string): (parts: seq<string>)
    ensures |parts| >= 1
    ensures forall i :: 0 <= i < |parts| ==> '/' !in parts[i]
    decreases |s|
  {
    if |s| == 0 then [""]
    else
      var init := Split(s[..|s| - 1]);
      var c := s[|s| - 1];
      if c == '/' then init + [""]
      else init[..|init| - 1] + [init[|init| - 1] + [c]]
  }

  /** `parts.join("/")`, the inverse of `Split`. */
  function Join(parts: seq<string>): string
    requires |parts| >= 1
  {
    if |parts| == 1 then parts[0]
    else Join(parts[..|parts| - 1]) + "/" + parts[|parts| - 1]
  }

  /** `parts.filter(Boolean)`: drops the empty strings, keeps the order. */
  function NonEmpty(parts: seq<string>): (kept: seq<string>)
    ensures |kept| <= |parts|
    ensures forall x {:trigger x in kept} :: x in kept <==> x in parts && x != ""
  {
    if |parts| == 0 then []
    else
      var last := parts[|parts| - 1];
      assert parts == parts[..|parts| - 1] + [last];
      NonEmpty(parts[..|parts| - 1]) + (if last == "" then [] else [last])
  }

  /** `.pop()` on the filtered segments: the last non-empty segment, if any. */
  function LastSegment(pathname: string): (r: Option<string>)
    ensures r.Some? ==> r.value != "" && '/' !in r.value
  {
    var parts := Split(pathname);
    var segs := NonEmpty(parts);
    if |segs| == 0 then None
    else
      var seg := segs[|segs| - 1];
      assert seg in segs;
      Some(seg)
  }

  /** The `|| "file"` fallback applied to `LastSegment`: a leaf before sanitizing is never empty and never holds a slash. */
  function LeafName(pathname: string): (leaf: string)
    ensures leaf != "" && '/' !in leaf
  {
    match LastSegment(pathname)
    case None => "file"
    case Some(seg) => seg
  }

  // ---------------------------------------------------------------------
  // An independent description of the last non-empty segment:
  // strip the trailing slashes, then take what follows the last slash.
  // ---------------------------------------------------------------------

  /** The longest prefix of `s` that does not end in a slash. */
  function StripTrailing(s: string): (r: string)
    ensures r <= s
    ensures forall i :: |r| <= i < |s| ==> s[i] == '/'
    ensures r == [] || r[|r| - 1] != '/'
  {
    if |s| > 0 && s[|s| - 1] == '/' then StripTrailing(s[..|s| - 1]) else s
  }

  /** The longest suffix of `s` that contains no slash. */
  function AfterLastSlash(s: string): (r: string)
    ensures |r| <= |s| && s[|s| - |r|..] == r
    ensures '/' !in r
    ensures |r| < |s| ==> s[|s| - |r| - 1] == '/'
  {
    if |s| == 0 || s[|s| - 1] == '/' then ""
    else AfterLastSlash(s[..|s| - 1]) + [s[|s| - 1]]
  }

  // ---------------------------------------------------------------------
  // Lemmas
  // ---------------------------------------------------------------------

  /** Adding an empty last piece adds a trailing slash to the join. */
  lemma JoinSnocEmpty(parts: seq<string>)
    requires |parts| >= 1
    ensures Join(parts + [""]) == Join(parts) + "/"
  {
    assert (parts + [""])[..|parts|] == parts;
  }

  /** Extending the last piece by a character extends the join by it. */
  lemma JoinSnocChar(parts: seq<string>, c: char)
    requires |parts| >= 1
    ensures Join(parts[..|parts| - 1] + [parts[|parts| - 1] + [c]]) == Join(parts) + [c]
  {
    var k := |parts| - 1;
    var init, last := parts[..k], parts[k];
    var q := init + [last + [c]];
    assert |q| == |parts| && q[|q| - 1] == last + [c];
    if k > 0 {
      assert q[..k] == init;
      calc {
        Join(q);
        Join(init) + "/" + (last + [c]);
        (Join(init) + "/" + last) + [c];
        Join(parts) + [c];
      }
    }
  }

  /** Joining the pieces of a split gives back the original string. */
  lemma {:induction false} JoinSplit(s: string)
    ensures Join(Split(s)) == s
    decreases |s|
  {
    if |s| > 0 {
      var pre := s[..|s| - 1];
      var c := s[|s| - 1];
      assert s == pre + [c];
      JoinSplit(pre);
      if c == '/' {
        SplitSnocSlash(pre);
        JoinSnocEmpty(Split(pre));
      } else {
        SplitSnocOther(pre, c);
        JoinSnocChar(Split(pre), c);
      }
    }
  }

  /** A string without slashes splits into itself alone. */
  lemma {:induction false} SplitNoSlash(w: string)
    requires '/' !in w
    ensures Split(w) == [w]
    decreases |w|
  {
    if |w| > 0 {
      var pre := w[..|w| - 1];
      assert '/' !in pre by {
        forall i | 0 <= i < |pre| ensures pre[i] != '/' { assert pre[i] == w[i]; }
      }
      SplitNoSlash(pre);
      assert w == pre + [w[|w| - 1]];
    }
  }

  /** Splitting `s + "/" + w` adds `w` as one more piece when `w` has no slash. */
  lemma {:induction false} SplitAppend(s: string, w: string)
    requires '/' !in w
    ensures Split(s + "/" + w) == Split(s) + [w]
    decreases |w|
  {
    if |w| == 0 {
      assert s + "/" + w == s + "/";
      SplitSnocSlash(s);
    } else {
      var pre := w[..|w| - 1];
      var c := w[|w| - 1];
      assert '/' !in pre by {
        forall i | 0 <= i < |pre| ensures pre[i] != '/' { assert pre[i] == w[i]; }
      }
      var t := s + "/" + pre;
      var p := Split(s) + [pre];
      assert s + "/" + w == t + [c];
      assert p[..|p| - 1] == Split(s) && p[|p| - 1] == pre;
      calc {
        Split(t + [c]);
        { SplitSnocOther(t, c); }
        Split(t)[..|Split(t)| - 1] + [Split(t)[|Split(t)| - 1] + [c]];
        { SplitAppend(s, pre); }
        Split(s) + [pre + [c]];
        { assert pre + [c] == w; }
        Split(s) + [w];
      }
    }
  }

  /** Splitting a join gives back the pieces, provided no piece holds a slash. */
  lemma {:induction false} SplitJoin(parts: seq<string>)
    requires |parts| >= 1
    requires forall i :: 0 <= i < |parts| ==> '/' !in parts[i]
    ensures Split(Join(parts)) == parts
    decreases |parts|
  {
    if |parts| == 1 {
      SplitNoSlash(parts[0]);
    } else {
      var init := parts[..|parts| - 1];
      SplitJoin(init);
      SplitAppend(Join(init), parts[|parts| - 1]);
      assert init + [parts[|parts| - 1]] == parts;
    }
  }

  /** The last piece of a split is what follows the last slash. */
  lemma {:induction false} SplitLast(s: string)
    ensures Split(s)[|Split(s)| - 1] == AfterLastSlash(s)
    decreases |s|
  {
    if |s| > 0 && s[|s| - 1] != '/' {
      SplitLast(s[..|s| - 1]);
    }
  }

  /** Filtering keeps order: the filter of a concatenation is the concatenation of the filters. */
  lemma {:induction false} NonEmptyAppend(a: seq<string>, b: seq<string>)
    ensures NonEmpty(a + b) == NonEmpty(a) + NonEmpty(b)
    decreases |b|
  {
    if |b| == 0 {
      assert a + b == a;
    } else {
      var ab := a + b;
      assert ab[..|ab| - 1] == a + b[..|b| - 1];
      assert ab[|ab| - 1] == b[|b| - 1];
      NonEmptyAppend(a, b[..|b| - 1]);
    }
  }

  /** Filtering leaves a list without empty pieces as it is. */
  lemma {:induction false} NonEmptyKeepsAll(parts: seq<string>)
    requires forall i :: 0 <= i < |parts| ==> parts[i] != ""
    ensures NonEmpty(parts) == parts
  {
    if |parts| > 0 {
      NonEmptyKeepsAll(parts[..|parts| - 1]);
    }
  }

  /** Filtering distributes over appending one more piece. */
  lemma NonEmptySnoc(parts: seq<string>, x: string)
    ensures NonEmpty(parts + [x]) == NonEmpty(parts) + (if x == "" then [] else [x])
  {
    assert (parts + [x])[..|parts|] == parts;
  }

  /** Splitting a string that ends in a slash adds an empty last piece. */
  lemma SplitSnocSlash(pre: string)
    ensures Split(pre + "/") == Split(pre) + [""]
  {
    assert (pre + "/")[..|pre|] == pre;
  }

  /** Splitting a string that ends in another character extends the last piece. */
  lemma SplitSnocOther(pre: string, c: char)
    requires c != '/'
    ensures var init := Split(pre);
      Split(pre + [c]) == init[..|init| - 1] + [init[|init| - 1] + [c]]
  {
    assert (pre + [c])[..|pre|] == pre;
  }

  /** A trailing slash does not change the last non-empty segment. */
  lemma LastSegmentSnocSlash(pre: string)
    ensures LastSegment(pre + "/") == LastSegment(pre)
  {
    SplitSnocSlash(pre);
    NonEmptySnoc(Split(pre), "");
  }

  /** A trailing non-slash character ends the last segment, which is what follows the last slash. */
  lemma LastSegmentSnocOther(pre: string, c: char)
    requires c != '/'
    ensures LastSegment(pre + [c]) == Some(AfterLastSlash(pre) + [c])
  {
    var init := Split(pre);
    SplitSnocOther(pre, c);
    SplitLast(pre);
    NonEmptySnoc(init[..|init| - 1], init[|init| - 1] + [c]);
  }

  /**
    The last non-empty segment is absent exactly when the pathname strips to
    nothing, and otherwise is the slash-free tail of the stripped pathname.
   */
  lemma {:induction false} LastSegmentSpec(pathname: string)
    ensures LastSegment(pathname) ==
      (var q := StripTrailing(pathname);
       if q == "" then None else Some(AfterLastSlash(q)))
    decreases |pathname|
  {
    var p := pathname;
    if |p| == 0 {
      assert Split(p) == [""];
      assert NonEmpty([""]) == NonEmpty([]) + [];
    } else {
      var pre := p[..|p| - 1];
      var c := p[|p| - 1];
      assert p == pre + [c];
      if c == '/' {
        LastSegmentSpec(pre);
        LastSegmentSnocSlash(pre);
        assert StripTrailing(p) == StripTrailing(pre);
      } else {
        LastSegmentSnocOther(pre, c);
        assert StripTrailing(p) == p;
        assert AfterLastSlash(p) == AfterLastSlash(pre) + [c];
      }
    }
  }

  /** The `"file"` fallback is taken exactly when the pathname is only slashes. */
  lemma LeafFallback(pathname: string)
    ensures LastSegment(pathname) == None <==> AllSlashes(pathname)
  {
    LastSegmentSpec(pathname);
    var q := StripTrailing(pathname);
    if q != "" {
      assert pathname[|q| - 1] == q[|q| - 1];
    }
  }

  /** `leaf` ends at position `end` of `pathname`, preceded by a slash or by nothing. */
  predicate LeafPlaced(pathname: string, leaf: string, end: int) {
    && 0 <= |leaf| <= end <= |pathname|
    && pathname[end - |leaf|..end] == leaf
    && (end == |leaf| || pathname[end - |leaf| - 1] == '/')
  }

  /** The slash-free tail of the stripped pathname is non-empty and sits at its end, after a slash or at the start. */
  lemma TailShape(pathname: string)
    requires StripTrailing(pathname) != ""
    ensures AfterLastSlash(StripTrailing(pathname)) != ""
    ensures LeafPlaced(pathname, AfterLastSlash(StripTrailing(pathname)), |StripTrailing(pathname)|)
  {
    var q := StripTrailing(pathname);
    var tail := AfterLastSlash(q);
    assert tail != "" by { assert q[|q| - 1] != '/'; }
    var n := |q| - |tail|;
    assert pathname[..|q|] == q;
    assert pathname[n..|q|] == q[n..];
    if n != 0 {
      assert pathname[n - 1] == q[n - 1];
    }
  }

  /** What follows the stripped pathname is slashes only. */
  lemma TrailingSlashes(pathname: string)
    ensures AllSlashes(pathname[|StripTrailing(pathname)|..])
  {
    var q := StripTrailing(pathname);
    var rest := pathname[|q|..];
    forall i | 0 <= i < |rest| ensures rest[i] == '/' {
      assert rest[i] == pathname[|q| + i];
    }
  }

  /** A pathname with some non-slash character strips to something non-empty, whose tail is the leaf. */
  lemma LeafIsTail(pathname: string)
    requires !AllSlashes(pathname)
    ensures StripTrailing(pathname) != ""
    ensures LeafName(pathname) == AfterLastSlash(StripTrailing(pathname))
  {
    LeafFallback(pathname);
    LastSegmentSpec(pathname);
  }

  /**
    The leaf of a pathname with some non-slash character is non-empty, has no
    slash, ends where the trailing slashes begin, and is preceded by a slash or
    by nothing.
   */
  lemma LeafShape(pathname: string)
    requires !AllSlashes(pathname)
    ensures LeafName(pathname) != "" && '/' !in LeafName(pathname)
    ensures LeafPlaced(pathname, LeafName(pathname), |StripTrailing(pathname)|)
    ensures AllSlashes(pathname[|StripTrailing(pathname)|..])
  {
    var q := StripTrailing(pathname);
    LeafIsTail(pathname);
    TailShape(pathname);
    assert LeafPlaced(pathname, AfterLastSlash(q), |q|);
    TrailingSlashes(pathname);
  }

  /** A directory-style pathname keeps its last real segment. */
  lemma LeafOfTrailingSlash()
    ensures LeafName("/js/") == "js"
  {
    LastSegmentSpec("/js/");
    assert "/js/"[..3] == "/js";
    assert StripTrailing("/js") == "/js";
    assert StripTrailing("/js/") == "/js";
    assert "/js"[..2] == "/j";
    assert "/j"[..1] == "/";
    assert AfterLastSlash("/") == "";
    assert AfterLastSlash("/js") == "js";
  }

  /** The root pathname falls back to `"file"`. */
  lemma LeafOfRoot()
    ensures LeafName("/") == "file"
  {
    LeafFallback("/");
  }
}
